=== FILE: README.md ===
# Mahashivratri invitation generator — a Dafny model

The page lets a visitor type a name, load a photo, pan and zoom it under a
circular guide, commit the crop, and generate an invitation. The generator
draws the cropped photo into the face circle of a fixed background. It then
writes "<name> invites you to join Mahashivratri Celebrations in Kolkata" on a
rotated board, wrapping the text greedily and shrinking the font from 38px in
2px steps until it fits in four lines or reaches 26px.

This project models the logic of `script.js` as pure Dafny functions over
exact reals and proves what that logic guarantees. It covers:

- the white-space tokenisation and `trim`;
- the greedy wrap;
- the shrink loop and the line layout;
- the zoom clamp and the "cover" placement shared by the preview and the crop;
- the mouse, touch and slider state machine;
- the session pipeline: photo, crop, generate, download.

Modules:

| file | module | contents |
|---|---|---|
| options.dfy | `Options` | `Option` for the script's null-or-object variables |
| strings.dfy | `Strings` | ECMAScript white space, `Split`/`Join`, `Tokens` (`split(/\s+/)`), `Trim` |
| wrap.dfy | `Wrap` | `wrapTextLines`, a loop-free definition of a greedy wrap, and the proof that they agree |
| geometry.dfy | `Geometry` | `Point`, `Rect`, `clamp`, the cover factor and the photo's rectangle |
| gesture.dfy | `Gesture` | the pan/zoom view state and its input handlers |
| crop.dfy | `Crop` | `drawCropPreview` and `makeCroppedSquare` as the rectangles they draw |
| fit.dfy | `Fit` | the shrink loop, `Math.round(fontSize * 1.2)`, the text layout and the board clip |
| invite.dfy | `Invite` | the composed invitation: face circle, message text, fitted lines |
| session.dfy | `Session` | the page state and the photo, pointer, use-crop and generate events |

Inputs the model cannot compute are parameters:

- `measureText` is an arbitrary function of the font size and the string;
- `Math.hypot` of two touches is the `spread` carried by a touch event;
- a loaded photo is its size and an identity.

## Model

| member | source | states |
|---|---|---|
| Strings.Split | script.js:124 | the pieces between white-space characters: at least one piece, and no piece contains white space |
| Strings.SplitJoin | script.js:124-128 | splitting words joined by single spaces gives the words back |
| Strings.JoinSplit | script.js:124-128 | joining the pieces of a string whose only white space is the plain space gives the string back |
| Strings.SplitAppend | script.js:124 | splitting `a + " " + b` splits `a` and `b` separately |
| Strings.SplitPieces | script.js:124 | for any white space, not only ' ': there is one more piece than white-space characters, and the pieces written one after another are the string without its white space |
| Strings.Tokens | script.js:124 | the tokens of `split(/\s+/)` after dropping the empty ones are all non-empty words without white space |
| Strings.TokensJoin | script.js:124 | tokenising words joined by single spaces returns exactly those words |
| Strings.TokensAppend | script.js:124 | a single space between two texts makes the token list the concatenation of their token lists |
| Strings.Trim | script.js:232 | the result is the contiguous middle of the input; everything removed before and after it is white space; it neither starts nor ends with white space |
| Strings.TrimEmpty | script.js:232-233 | the trimmed name is empty exactly when the field holds only white space |
| Strings.TrimIdempotent | script.js:232 | trimming a trimmed string changes nothing |
| Wrap.WrapTextLines | script.js:123-134 | the returned lines hold the text's words in order, one-space separated; each line grew only while its extension fitted; each line was closed only because the next word would not fit |
| Wrap.WrappedLinesFit | script.js:123-134 | the lines are never empty; their words are exactly the text's words; there are no more lines than words and none only for blank text; each line fits the width or is one word |
| Wrap.GreedyWrapUnique | script.js:127-131 | two greedy wraps of the same words under the same measure and limit are equal |
| Wrap.FirstLineNotShorter | script.js:129-130 | a greedy first line is maximal: no other greedy wrap of the same words has a longer first line |
| Wrap.WrapTextLinesUnique | script.js:123-134 | any greedy wrap of the text's words is exactly what `wrapTextLines` returns |
| Wrap.TailIsGreedyWrap | script.js:127-131 | dropping the first line of a greedy wrap leaves a greedy wrap of the remaining words |
| Geometry.Clamp | script.js:56 | the result is at least `min`, at most `max` when `min <= max`, the input itself when already in range, and the bound it passes otherwise |
| Geometry.ClampIdempotent | script.js:56 | clamping a clamped value changes nothing |
| Geometry.ClampMonotonic | script.js:56 | clamping preserves order |
| Geometry.CoverBase | script.js:67 | scaled by the cover factor, the image reaches the canvas size on both axes and matches it exactly on one |
| Geometry.CoverBaseIsLeast | script.js:67 | no smaller factor fills the canvas on both axes |
| Geometry.CoverRect | script.js:66-74 | the drawn rectangle keeps the photo's aspect ratio, is centred on the canvas centre moved by the pan, and is at least `scale` times the canvas on both axes and exactly that on one |
| Geometry.CoverFillsCanvas | script.js:66-74 | with zoom at least 1 and no pan, the photo covers the whole canvas |
| Geometry.CoverIffPanWithinOverhang | script.js:73-74 | the photo covers the canvas exactly when each pan offset is within half the photo's overhang on that axis |
| Geometry.PanTranslates | script.js:73-74 | changing the pan moves the rectangle by exactly that amount and changes nothing else |
| Gesture.PinchScale | script.js:218-221 | the pinch zoom is in [1, 4]: the starting zoom times the distance ratio when that product is in range, exactly 1 below it and exactly 4 above it |
| Gesture.PinchWithoutMotion | script.js:219-221 | fingers at the starting distance leave the zoom where the pinch began |
| Gesture.PinchMonotonic | script.js:219-221 | spreading the fingers further never zooms out |
| Gesture.Step | script.js:165-229 | each handler keeps the zoom in [1, 4] with the slider showing it; the slider sets the zoom to its value; mousedown starts a drag anchored at the pointer, mouseup ends it, touchend clears the touch mode; only the slider or a pinch move changes the zoom; only a mouse or touch move changes the pan; only mousedown and mouseup change the drag flag; only touchstart and touchend change the touch mode; a touchstart with neither one nor two touches changes nothing; a touch move whose count does not match the mode (one finger for a drag, two for a pinch) changes nothing; without a photo touchstart and touchmove change nothing |
| Gesture.MovesAfterReleaseAreInert | script.js:175-229 | after touchend a touch move changes nothing, and after mouseup a mouse move changes nothing |
| Gesture.Run | script.js:165-229 | any sequence of well-formed inputs keeps the view valid |
| Gesture.MouseDragSum | script.js:176-182 | during a mouse drag the pan grows by the distance from the anchor to the last pointer position, whatever the path |
| Gesture.MouseDragTelescopes | script.js:171-182 | a press at `p0` followed by moves ending at `pn` pans by `pn - p0` and keeps the zoom |
| Gesture.FingerDragSum | script.js:207-213 | during a one-finger drag the pan grows by the distance from the anchor to the last finger position |
| Gesture.FingerDragTelescopes | script.js:189-213 | a one-finger touch at `p0` followed by moves ending at `pn` pans by `pn - p0` and keeps the zoom |
| Gesture.PinchSum | script.js:215-224 | a run of pinch moves leaves the zoom determined by the last distance alone and keeps the pan |
| Gesture.PinchFollowsLatestSpread | script.js:195-224 | after a two-finger start at distance `d0`, the zoom is `clamp(s0 * d / d0, 1, 4)` for the latest distance `d`, and the pan is untouched |
| Crop.PhotoRect | script.js:109-116 | the rectangle both the preview and the crop draw the photo in keeps its aspect ratio, is centred on the canvas centre moved by the pan, and is at least `scale` times the canvas on both axes and exactly that on one |
| Crop.DrawCropPreview | script.js:59-96 | a preview exists exactly when a photo is loaded; the photo is drawn in its cover rectangle; the guide is centred on the canvas with radius 0.36 of the width, which is positive and less than half the width |
| Crop.MakeCroppedSquare | script.js:99-120 | the square has the crop canvas's size and holds the loaded photo, drawn in its cover rectangle under the current pan and zoom |
| Crop.SquareMatchesPreview | script.js:108-118 | the committed square holds the photo in the very rectangle the preview showed |
| Crop.UnpannedSquareIsFilled | script.js:99-120 | with no pan, a square committed at any allowed zoom is filled by the photo edge to edge |
| Fit.ShrinkFrom | script.js:298-303 | the loop ends at a reachable size no larger than where it entered; it returns the full wrap at that size; the wrap has at most 4 lines or the size is 26; every larger size it passed needed more than 4 lines; it ran `(38 - size) / 2 <= 6` times |
| Fit.FitText | script.js:292-303 | the final size is the largest of 38, 36, ..., 26 whose wrap takes at most four lines, or 26 when none does; the lines are that size's full wrap; at most six shrink steps |
| Fit.FitsAtOnceKeepsInitialSize | script.js:298-299 | text that wraps into four lines at 38px is drawn at 38px with no shrink step |
| Fit.LineHeight | script.js:305 | the line height is `fontSize * 1.2` rounded to the nearest integer |
| Fit.LayoutFrom | script.js:309-312 | line k is drawn at x = 0, k line heights below the first |
| Fit.LayoutText | script.js:305-312 | every line is drawn centred at x = 0; consecutive lines are one line height apart; the block is symmetric about the 6px downward bias |
| Fit.MirroredLines | script.js:306-307 | lines k and n - 1 - k of an n-line block average to the bias |
| Fit.BoardClipCentred | script.js:279-281 | the board's clip rectangle is centred on the board's origin |
| Fit.CentredLineInsideClip | script.js:281-295 | a line no wider than the wrap limit, centred at x = 0, lies inside the clip with 5px to spare on each side |
| Fit.TextBlockInsideClip | script.js:279-312 | at any reachable size, at most four lines of text lie inside the clip vertically |
| Invite.CircleBox | script.js:137-144 | the square is stretched over a box of side twice the radius centred on the circle |
| Invite.GuideLandsInsideFace | script.js:79-86 | on a square crop canvas, every point inside the crop guide lands inside the face circle of the invitation |
| Invite.Compose | script.js:251-314 | the invitation carries the trimmed name and the committed crop, drawn into the face circle's box at (256, 585) with radius 86; its font size is the largest of 38, 36, ..., 26 at which the message wraps into at most four lines, or 26 when none does; its lines are the message's full wrap at that size; the line height is `1.2 * fontSize` rounded; each line is drawn once, in order, centred at x = 0, one line height below the previous, and the block is symmetric about the 6px downward bias |
| Invite.InviteTextWords | script.js:272 | the message's words are the name's words followed by the eight fixed words |
| Invite.ComposedTextIsComplete | script.js:272-312 | the drawn lines hold every word of the name and then the fixed message, in order, none dropped or broken; there is at least one line; each fits the text width or is a single word; with at most four lines the block lies inside the clip vertically, and every line no wider than the wrap limit lies inside it horizontally with 5px to spare |
| Invite.LinesInsideClip | script.js:281-308 | every drawn line that is no wider than the wrap limit, being centred at x = 0, lies within the clip's left and right edges with 5px to spare |
| Session.Init | script.js:21-30 | the page starts with no photo, crop or invitation, no pan, no drag or touch in progress, the zoom at the slider's value and both buttons disabled |
| Session.Step | script.js:147-249 | every event preserves the pipeline invariant; only a photo event changes the photo, only use-crop changes the crop, and only generate changes the invitation; only a photo event or use-crop changes whether generate is enabled, and only a photo event or generate changes whether download is enabled; a pointer event applies the gesture handlers to the view and changes nothing else |
| Session.PointerRun | script.js:165-229 | a run of pointer events is the gesture run on the view, with the photo, crop, invitation and buttons unchanged |
| Session.PageMouseDrag | script.js:171-182 | on the page, a press at `p0` then moves ending at `pn` pans the crop view by `pn - p0`, keeps the zoom, and leaves the photo, crop, invitation and both buttons untouched |
| Session.Run | script.js:147-316 | any sequence of events preserves the pipeline invariant |
| Session.NewPhotoResetsView | script.js:147-163 | a new photo becomes current; the pan is reset, the zoom is taken from the slider, and both buttons are disabled; the old crop and invitation are kept |
| Session.NoPhotoNoChange | script.js:148-149 | a file-input change without a file changes nothing |
| Session.UseCropRefused | script.js:232-237 | use-crop with a blank name or without a photo changes nothing |
| Session.UseCropCommits | script.js:237-240 | use-crop with a name and a photo commits exactly what the preview shows, from the current photo, and enables generate; the view, photo, invitation and download button are kept |
| Session.GenerateRefused | script.js:245-249 | generate with a blank name or without a committed crop changes nothing |
| Session.GenerateEnablesDownload | script.js:244-316 | generate composes the invitation from the trimmed name and the committed crop of the current photo, then enables download; generate stays enabled, and the photo, crop and view are kept |
| Session.NewPhotoNeedsNewCrop | script.js:147-163 | after a new photo, generate does nothing until the crop is committed again |
| Session.PipelineOrder | script.js:147-316 | from the page as loaded, generate is enabled only with a crop of the current photo, download only with a composed invitation, and the zoom stays in [1, 4] |

## Left out

- Loading the photo (`loadUserImage`, lines 33-54): it uses the browser's image decoding and orientation handling. A loaded photo is modelled by its size and an identity, and a failed load as no photo.
- Pixels: clearing, drawing, overlay, compositing, shadows and `toDataURL` are not modelled. The model keeps only the rectangles and coordinates passed to the canvas.
- `measureText` is an arbitrary function of the font size and the string, so no text-width fact about Georgia is assumed.
- `Math.hypot` is not computed. A touch event carries the finger distance, and a pinch that starts with both fingers at one point (distance 0) is excluded, because the script would divide by zero.
- The board's translation to (295, 833) and rotation by -10.4 degrees (lines 265-276) are canvas transforms and are not modelled. Text positions and the clip are stated in the board's own frame.
- Floating point: JavaScript numbers are exact reals. `Math.round(fontSize * 1.2)` is computed exactly, which is correct for the integer sizes 26..38.
- Strings.Tokens: drops the empty tokens `split(/\s+/)` yields for leading or trailing white space. In the script such a token is an empty word. Because the name is trimmed and the message has no edge spaces, it cannot occur here.
- The slider's range and step, and the buttons' initial disabled state, come from the page markup, which is not part of this model. Slider values are taken to lie in [1, 4], the range of the pinch clamp, and both buttons start disabled.
- Gesture.Step: assumes the slider stores any value in [1, 4] exactly, as with step "any". A range input rounds an assigned value to its step and clamps it to its range, so after a pinch (line 222) the slider could hold a rounded zoom, and the next photo would start from it (line 154). The model does not cover that case: its view keeps the slider equal to the zoom.
- The alerts, the crop view's visibility and the download itself (lines 319-326) are side effects with no state the model tracks.
- Session.Step: the generate handler is modelled as one atomic step. In the script it waits for the background image at line 251 when `background.png` has not finished loading yet. Events handled during that wait are not modelled: a new photo or a new crop could change the `croppedSquare` that line 262 draws, and line 316 could then enable download after a new photo had disabled it.
- Session.Step: a click on a disabled generate button is not delivered by the browser, so the model treats it as a no-op.

Two facts about the code that the model keeps:

- The wrap width is `boardW - pad*2 - 10` = 318 (line 295).
- A new photo does not clear `croppedSquare` (lines 147-163). It only disables the generate button, so the old crop cannot be used until it is committed again (Session.NewPhotoNeedsNewCrop).

=== FILE: crop.dfy ===
/**
 The crop step: the live preview of the photo under the current pan and zoom,
 with its circular guide, and the square image baked from the same placement
 when the user commits the crop.
 */
module Crop {
  import opened Options
  import opened Geometry
  import opened Gesture

  /** A decoded photo: an identity standing for its pixels, and its size in pixels. */
  datatype Photo = Photo(id: nat, width: int, height: int)

  predicate Decoded(p: Photo) {
    p.width > 0 && p.height > 0
  }

  /** The size of the crop canvas, which the page fixes. */
  datatype Canvas = Canvas(width: int, height: int)

  predicate ValidCanvas(c: Canvas) {
    c.width > 0 && c.height > 0
  }

  /** The guide circle's radius as a fraction of the canvas width. */
  const GuideRatio: real := 0.36

  /** Where the photo is drawn on a canvas of size `c` under view `v`. */
  function PhotoRect(c: Canvas, p: Photo, v: View): (r: Rect)
    requires Decoded(p)
    ensures r.w * (p.height as real) == r.h * (p.width as real)
    ensures r.x + r.w / 2.0 == c.width as real / 2.0 + v.offsetX
    ensures r.y + r.h / 2.0 == c.height as real / 2.0 + v.offsetY
    ensures v.scale >= 0.0 ==> r.w >= c.width as real * v.scale && r.h >= c.height as real * v.scale
    ensures r.w == c.width as real * v.scale || r.h == c.height as real * v.scale
  {
    CoverRect(c.width as real, c.height as real, p.width as real, p.height as real,
              v.scale, v.offsetX, v.offsetY)
  }

  /** What `drawCropPreview` draws: the photo, then a circular guide centred on
      the canvas (the dimming overlay and outline are drawn around it). */
  datatype Preview = Preview(image: Rect, guideCentre: Point, guideRadius: real)

  /** `drawCropPreview()`: nothing until a photo is loaded. */
  function DrawCropPreview(c: Canvas, photo: Option<Photo>, v: View): (r: Option<Preview>)
    requires photo.Some? ==> Decoded(photo.value)
    ensures r.Some? <==> photo.Some?
    ensures r.Some? ==> r.value.image == PhotoRect(c, photo.value, v)
    ensures r.Some? ==> r.value.guideCentre == Point(c.width as real / 2.0, c.height as real / 2.0)
    ensures r.Some? ==> r.value.guideRadius == c.width as real * GuideRatio
    ensures r.Some? && c.width > 0 ==> 0.0 < r.value.guideRadius < c.width as real / 2.0
  {
    if photo.None? then None
    else Some(Preview(PhotoRect(c, photo.value, v),
                      Point(c.width as real / 2.0, c.height as real / 2.0),
                      c.width as real * GuideRatio))
  }

  /** The baked crop: a canvas of the crop canvas's size holding `source` drawn
      into `image`. */
  datatype Square = Square(source: Photo, width: int, height: int, image: Rect)

  /** `makeCroppedSquare()`. */
  function MakeCroppedSquare(c: Canvas, p: Photo, v: View): (r: Square)
    requires Decoded(p)
    ensures r.source == p && r.width == c.width && r.height == c.height
    ensures r.image == PhotoRect(c, p, v)
  {
    Square(p, c.width, c.height, PhotoRect(c, p, v))
  }

  /** What you see is what you get: the committed square holds the photo in the
      very rectangle the preview showed it in, on a canvas of the same size. */
  lemma SquareMatchesPreview(c: Canvas, p: Photo, v: View)
    requires Decoded(p)
    ensures var sq := MakeCroppedSquare(c, p, v);
            var pv := DrawCropPreview(c, Some(p), v);
      pv.Some? && pv.value.image == sq.image && sq.width == c.width && sq.height == c.height
  {
  }

  /** Without panning, a committed square at any zoom the controls allow is
      filled by the photo edge to edge. */
  lemma UnpannedSquareIsFilled(c: Canvas, p: Photo, v: View)
    requires Decoded(p) && ValidCanvas(c) && Gesture.Valid(v)
    requires v.offsetX == 0.0 && v.offsetY == 0.0
    ensures MakeCroppedSquare(c, p, v).image.Covers(c.width as real, c.height as real)
  {
    CoverFillsCanvas(c.width as real, c.height as real, p.width as real, p.height as real, v.scale);
  }
}

=== FILE: fit.dfy ===
/**
 Shrink-to-fit and placement of the invitation text on the board: the font
 shrinks from 38px in steps of 2 until the text wraps into at most four lines or
 the size reaches 26px; the lines are then stacked around the board's centre.
 */
module Fit {
  import opened Wrap
  import opened Geometry

  const InitialFontSize: int := 38
  const MinFontSize: int := 26
  const FontStep: int := 2
  const MaxLines: int := 4

  /** The board: a 372 x 246 rectangle around the origin of the rotated frame,
      clipped 22px inside its edges. */
  const BoardWidth: int := 372
  const BoardHeight: int := 246
  const BoardPadding: int := 22

  /** `boardW - pad*2 - 10`: the width the wrap may fill. */
  const MaxTextWidth: int := BoardWidth - BoardPadding * 2 - 10

  /** The downward bias of the text block, in pixels. */
  const TextBias: real := 6.0

  /** Width of a string at a font size in pixels: `measureText` after
      `ctx.font = "800 <size>px Georgia, serif"`. */
  type SizedMeasure = (int, string) -> real

  /** The wrapped lines at one font size. */
  function LinesAt(measure: SizedMeasure, text: string, fontSize: int): seq<string> {
    WrapTextLines(s => measure(fontSize, s), text, MaxTextWidth as real)
  }

  /** The font sizes the loop can reach: 38, 36, ..., 26. */
  predicate Reachable(fontSize: int) {
    MinFontSize <= fontSize <= InitialFontSize && fontSize % FontStep == 0
  }

  /** Outcome of the shrink loop: the final size, the lines wrapped at that size
      and how many times the loop body ran. */
  datatype Fitted = Fitted(fontSize: int, lines: seq<string>, rounds: nat)

  /** The loop `while (lines.length > 4 && fontSize > 26)` entered at `fontSize`
      after `rounds` iterations. */
  function ShrinkFrom(measure: SizedMeasure, text: string, fontSize: int, rounds: nat): (r: Fitted)
    requires Reachable(fontSize) && rounds == (InitialFontSize - fontSize) / FontStep
    ensures Reachable(r.fontSize) && r.fontSize <= fontSize
    ensures r.lines == LinesAt(measure, text, r.fontSize)
    ensures |r.lines| <= MaxLines || r.fontSize == MinFontSize
    ensures forall g :: r.fontSize < g <= fontSize && Reachable(g) ==> |LinesAt(measure, text, g)| > MaxLines
    ensures r.rounds == (InitialFontSize - r.fontSize) / FontStep <= 6
    decreases fontSize
  {
    var lines := LinesAt(measure, text, fontSize);
    if |lines| > MaxLines && fontSize > MinFontSize then
      ShrinkFrom(measure, text, fontSize - FontStep, rounds + 1)
    else
      Fitted(fontSize, lines, rounds)
  }

  /** The wrap-and-shrink of the generate handler. The result is the largest
      reachable size at which the text takes at most four lines, or 26 when no
      size does; the lines are the full wrap at that size, never truncated; the
      loop ran at most six times. */
  function FitText(measure: SizedMeasure, text: string): (r: Fitted)
    ensures Reachable(r.fontSize)
    ensures r.lines == LinesAt(measure, text, r.fontSize)
    ensures |r.lines| <= MaxLines || r.fontSize == MinFontSize
    ensures forall g :: r.fontSize < g && Reachable(g) ==> |LinesAt(measure, text, g)| > MaxLines
    ensures r.rounds == (InitialFontSize - r.fontSize) / FontStep <= 6
  {
    ShrinkFrom(measure, text, InitialFontSize, 0)
  }

  /** When the text fits at 38px the font is not shrunk at all. */
  lemma FitsAtOnceKeepsInitialSize(measure: SizedMeasure, text: string)
    requires |LinesAt(measure, text, InitialFontSize)| <= MaxLines
    ensures FitText(measure, text).fontSize == InitialFontSize
    ensures FitText(measure, text).rounds == 0
  {
  }

  /** `Math.round(fontSize * 1.2)`: the nearest integer, halves rounded up. */
  function LineHeight(fontSize: int): (h: int)
    ensures (h as real) - 0.5 <= (fontSize as real) * 1.2 < (h as real) + 0.5
  {
    (12 * fontSize + 5) / 10
  }

  /** One `fillText(text, x, y)` call. */
  datatype TextDraw = TextDraw(text: string, x: real, y: real)

  /** The drawing loop from baseline `y` on: each line centred at x = 0, the
      baseline advancing by `lineHeight`. */
  function LayoutFrom(lines: seq<string>, y: real, lineHeight: real): (r: seq<TextDraw>)
    ensures |r| == |lines|
    ensures forall k :: 0 <= k < |r| ==> r[k] == TextDraw(lines[k], 0.0, y + (k as real) * lineHeight)
    decreases |lines|
  {
    if |lines| == 0 then []
    else
      [TextDraw(lines[0], 0.0, y)] + LayoutFrom(lines[1..], y + lineHeight, lineHeight)
  }

  /** The vertical middle of the first line: the block of `n` lines of height
      `lineHeight` is centred on the bias. */
  function FirstLineY(n: int, lineHeight: int): real {
    -((n * lineHeight) as real) / 2.0 + (lineHeight as real) / 2.0 + TextBias
  }

  /** The text lines as drawn: line k sits k line heights below the first, and
      the block is symmetric about the downward bias. */
  function LayoutText(lines: seq<string>, lineHeight: int): (r: seq<TextDraw>)
    ensures |r| == |lines|
    ensures forall k :: 0 <= k < |r| ==> r[k].text == lines[k] && r[k].x == 0.0
    ensures forall k :: 0 <= k < |r| - 1 ==> r[k + 1].y - r[k].y == lineHeight as real
    ensures forall k :: 0 <= k < |r| ==> r[k].y + r[|r| - 1 - k].y == 2.0 * TextBias
  {
    var y0 := FirstLineY(|lines|, lineHeight);
    var r := LayoutFrom(lines, y0, lineHeight as real);
    forall k | 0 <= k < |r|
      ensures r[k].y + r[|r| - 1 - k].y == 2.0 * TextBias
    {
      MirroredLines(|r|, lineHeight, k);
    }
    r
  }

  /** Lines k and n - 1 - k of a block of n lines average to the bias. */
  lemma MirroredLines(n: int, lineHeight: int, k: int)
    ensures var y0 := FirstLineY(n, lineHeight);
            var h := lineHeight as real;
      (y0 + (k as real) * h) + (y0 + ((n - 1 - k) as real) * h) == 2.0 * TextBias
  {
    var h := lineHeight as real;
    var y0 := FirstLineY(n, lineHeight);
    assert ((n * lineHeight) as real) == (n as real) * h;
    assert (k as real) * h + ((n - 1 - k) as real) * h == ((n - 1) as real) * h;
    assert ((n - 1) as real) * h == (n as real) * h - h;
  }

  /** The clip rectangle of the board, in the board's rotated frame. */
  function BoardClip(): Rect {
    Rect((-BoardWidth / 2 + BoardPadding) as real, (-BoardHeight / 2 + BoardPadding) as real,
         (BoardWidth - BoardPadding * 2) as real, (BoardHeight - BoardPadding * 2) as real)
  }

  /** The clip is centred on the board's origin. */
  lemma BoardClipCentred()
    ensures BoardClip().x + BoardClip().w / 2.0 == 0.0
    ensures BoardClip().y + BoardClip().h / 2.0 == 0.0
  {
  }

  /** A line no wider than the wrap limit, drawn centred at x = 0, lies inside
      the clip horizontally with 5px to spare on each side. */
  lemma CentredLineInsideClip(width: real)
    requires 0.0 <= width <= MaxTextWidth as real
    ensures BoardClip().x + 5.0 <= -width / 2.0
    ensures width / 2.0 <= BoardClip().Right() - 5.0
  {
  }

  /** When the shrink loop ends with at most four lines, the whole text block
      (each line's box of one line height around its middle) lies inside the
      clip vertically. */
  lemma TextBlockInsideClip(fontSize: int, lines: seq<string>)
    requires Reachable(fontSize) && 0 < |lines| <= MaxLines
    ensures var h := LineHeight(fontSize) as real;
            var r := LayoutText(lines, LineHeight(fontSize));
      && BoardClip().y <= r[0].y - h / 2.0
      && r[|r| - 1].y + h / 2.0 <= BoardClip().Bottom()
  {
    var lh := LineHeight(fontSize);
    assert lh <= 46;
    var r := LayoutText(lines, lh);
    var n := |lines|;
    assert r[0].y == FirstLineY(n, lh) by {
      assert r == LayoutFrom(lines, FirstLineY(n, lh), lh as real);
    }
    assert r[n - 1].y == 2.0 * TextBias - r[0].y;
    assert n * lh <= 4 * 46;
  }
}

=== FILE: geometry.dfy ===
/**
 The numbers behind the crop view: the zoom clamp and the "cover" placement of
 the photo inside the crop canvas. JavaScript numbers are modelled as exact reals.
 */
module Geometry {

  datatype Point = Point(x: real, y: real)

  /** A destination rectangle as passed to `drawImage(img, x, y, w, h)`. */
  datatype Rect = Rect(x: real, y: real, w: real, h: real) {
    function Right(): real { x + w }
    function Bottom(): real { y + h }

    /** The rectangle includes the box [0, width] x [0, height]. */
    predicate Covers(width: real, height: real) {
      x <= 0.0 && y <= 0.0 && Right() >= width && Bottom() >= height
    }
  }

  function Max(a: real, b: real): real { if a >= b then a else b }
  function Min(a: real, b: real): real { if a <= b then a else b }

  /** `clamp(v, min, max)`, that is `Math.max(min, Math.min(max, v))`. */
  function Clamp(v: real, lo: real, hi: real): (r: real)
    ensures r >= lo
    ensures lo <= hi ==> r <= hi
    ensures lo <= v <= hi ==> r == v
    ensures v < lo ==> r == lo
    ensures lo <= hi < v ==> r == hi
  {
    Max(lo, Min(hi, v))
  }

  /** Clamping a value already clamped changes nothing. */
  lemma ClampIdempotent(v: real, lo: real, hi: real)
    requires lo <= hi
    ensures Clamp(Clamp(v, lo, hi), lo, hi) == Clamp(v, lo, hi)
  {
  }

  /** Clamping keeps the order of its inputs. */
  lemma ClampMonotonic(u: real, v: real, lo: real, hi: real)
    requires lo <= hi && u <= v
    ensures Clamp(u, lo, hi) <= Clamp(v, lo, hi)
  {
  }

  /** The "cover" factor `Math.max(cw / iw, ch / ih)`: the smallest factor by
      which the image must be scaled to fill the canvas on both axes. */
  function CoverBase(cw: real, ch: real, iw: real, ih: real): (b: real)
    requires iw > 0.0 && ih > 0.0
    ensures iw * b >= cw && ih * b >= ch
    ensures iw * b == cw || ih * b == ch
  {
    var fx := cw / iw;
    var fy := ch / ih;
    assert iw * fx == cw;
    assert ih * fy == ch;
    Max(fx, fy)
  }

  lemma MulLe(a: real, b: real, c: real)
    requires a > 0.0 && a * b <= a * c
    ensures b <= c
  {
  }

  /** No smaller factor fills the canvas on both axes. */
  lemma CoverBaseIsLeast(cw: real, ch: real, iw: real, ih: real, b': real)
    requires iw > 0.0 && ih > 0.0
    requires iw * b' >= cw && ih * b' >= ch
    ensures CoverBase(cw, ch, iw, ih) <= b'
  {
    var b := CoverBase(cw, ch, iw, ih);
    if iw * b == cw {
      MulLe(iw, b, b');
    } else {
      MulLe(ih, b, b');
    }
  }

  /** The rectangle the photo is drawn into, computed the same way by the
      preview and by the crop: the photo scaled by the cover factor times
      `scale`, centred in the canvas and then moved by the pan offsets. */
  function CoverRect(cw: real, ch: real, iw: real, ih: real,
                     scale: real, offsetX: real, offsetY: real): (r: Rect)
    requires iw > 0.0 && ih > 0.0
    ensures r.w * ih == r.h * iw
    ensures r.x + r.w / 2.0 == cw / 2.0 + offsetX
    ensures r.y + r.h / 2.0 == ch / 2.0 + offsetY
    ensures scale >= 0.0 ==> r.w >= cw * scale && r.h >= ch * scale
    ensures r.w == cw * scale || r.h == ch * scale
  {
    var base := CoverBase(cw, ch, iw, ih);
    var s := base * scale;
    var dw := iw * s;
    var dh := ih * s;
    assert dw == (iw * base) * scale && dh == (ih * base) * scale;
    assert dw * ih == dh * iw;
    Rect((cw - dw) / 2.0 + offsetX, (ch - dh) / 2.0 + offsetY, dw, dh)
  }

  /** With no pan and a zoom of at least 1 the photo covers the whole canvas. */
  lemma CoverFillsCanvas(cw: real, ch: real, iw: real, ih: real, scale: real)
    requires iw > 0.0 && ih > 0.0 && cw >= 0.0 && ch >= 0.0
    requires scale >= 1.0
    ensures CoverRect(cw, ch, iw, ih, scale, 0.0, 0.0).Covers(cw, ch)
  {
    var r := CoverRect(cw, ch, iw, ih, scale, 0.0, 0.0);
    assert cw * scale >= cw && ch * scale >= ch;
  }

  /** The photo covers the canvas exactly when neither pan offset exceeds half
      of the photo's overhang on its axis. */
  lemma CoverIffPanWithinOverhang(cw: real, ch: real, iw: real, ih: real,
                                  scale: real, offsetX: real, offsetY: real)
    requires iw > 0.0 && ih > 0.0
    ensures var r := CoverRect(cw, ch, iw, ih, scale, offsetX, offsetY);
      r.Covers(cw, ch) <==>
        && -(r.w - cw) / 2.0 <= offsetX <= (r.w - cw) / 2.0
        && -(r.h - ch) / 2.0 <= offsetY <= (r.h - ch) / 2.0
  {
  }

  /** A pan moves the rectangle by exactly the pan and changes nothing else. */
  lemma PanTranslates(cw: real, ch: real, iw: real, ih: real,
                      scale: real, offsetX: real, offsetY: real, dx: real, dy: real)
    requires iw > 0.0 && ih > 0.0
    ensures var a := CoverRect(cw, ch, iw, ih, scale, offsetX, offsetY);
            var b := CoverRect(cw, ch, iw, ih, scale, offsetX + dx, offsetY + dy);
      b == Rect(a.x + dx, a.y + dy, a.w, a.h)
  {
  }
}

=== FILE: gesture.dfy ===
/**
 The pan and zoom controls of the crop canvas: the zoom slider, mouse drag, and
 one-finger drag or two-finger pinch on a touch screen. All of them update one
 view state; the canvas is redrawn after each, which only reads that state.
 */
module Gesture {
  import opened Geometry

  /** The zoom range of the pinch clamp, which is also the slider's range. */
  const MinScale: real := 1.0
  const MaxScale: real := 4.0

  /** `touchMode`: `null`, `"drag"` or `"pinch"`. */
  datatype TouchMode = NoTouch | DragTouch | PinchTouch

  /** The script's crop-transform variables. */
  datatype View = View(
    scale: real,          // zoom factor on top of the cover fit
    offsetX: real,        // pan, in canvas pixels
    offsetY: real,
    slider: real,         // the number the zoom slider shows
    isDragging: bool,     // a mouse button is held after a press on the canvas
    last: Point,          // anchor of the drag: where the pointer was last seen
    touchMode: TouchMode,
    startDist: real,      // finger distance when the pinch began
    startScale: real)     // zoom when the pinch began

  /** The touches of a touch event: how many there are, where the first one is,
      and the distance between the first two (`Math.hypot(dx, dy)`). */
  datatype Touches = Touches(count: nat, first: Point, spread: real)

  datatype Input =
    | SliderInput(value: real)      // the zoom slider's "input" event, with its new value
    | MouseDown(at: Point)          // mousedown on the canvas
    | MouseUp                       // mouseup anywhere in the window
    | MouseMove(at: Point)          // mousemove anywhere in the window
    | TouchStart(touches: Touches)
    | TouchMove(touches: Touches)
    | TouchEnd

  /** Inputs the browser can deliver: the slider stays within its range, finger
      distances are not negative, and a pinch starts with two distinct fingers. */
  predicate WellFormedInput(i: Input) {
    match i
    case SliderInput(x) => MinScale <= x <= MaxScale
    case TouchStart(t) => t.spread >= 0.0 && (t.count == 2 ==> t.spread > 0.0)
    case TouchMove(t) => t.spread >= 0.0
    case _ => true
  }

  /** A pinch in progress has a distance to divide by. */
  predicate PinchReady(v: View) {
    v.touchMode == PinchTouch ==> v.startDist > 0.0
  }

  /** The zoom stays in [1, 4], the slider shows it, and a pinch in progress
      started from a zoom in range. */
  predicate Valid(v: View) {
    && MinScale <= v.scale <= MaxScale
    && v.slider == v.scale
    && PinchReady(v)
    && (v.touchMode == PinchTouch ==> MinScale <= v.startScale <= MaxScale)
  }

  /** A pinch's zoom: the zoom at the start of the pinch times the change of
      finger distance, clamped to [1, 4]. */
  function PinchScale(startScale: real, startDist: real, dist: real): (r: real)
    requires startDist > 0.0
    ensures MinScale <= r <= MaxScale
    ensures MinScale <= startScale * (dist / startDist) <= MaxScale ==> r == startScale * (dist / startDist)
    ensures startScale * (dist / startDist) < MinScale ==> r == MinScale
    ensures startScale * (dist / startDist) > MaxScale ==> r == MaxScale
  {
    Clamp(startScale * (dist / startDist), MinScale, MaxScale)
  }

  /** Fingers that have not moved apart or together leave the zoom where the
      pinch started. */
  lemma PinchWithoutMotion(startScale: real, startDist: real)
    requires startDist > 0.0 && MinScale <= startScale <= MaxScale
    ensures PinchScale(startScale, startDist, startDist) == startScale
  {
    assert startDist / startDist == 1.0;
  }

  /** Spreading the fingers further never zooms out. */
  lemma PinchMonotonic(startScale: real, startDist: real, d1: real, d2: real)
    requires startDist > 0.0 && startScale >= 0.0 && d1 <= d2
    ensures PinchScale(startScale, startDist, d1) <= PinchScale(startScale, startDist, d2)
  {
    assert d1 / startDist <= d2 / startDist;
    assert startScale * (d1 / startDist) <= startScale * (d2 / startDist);
    ClampMonotonic(startScale * (d1 / startDist), startScale * (d2 / startDist), MinScale, MaxScale);
  }

  /** The pan after the pointer moved from the anchor to `p`. */
  function DragTo(v: View, p: Point): View {
    v.(offsetX := v.offsetX + (p.x - v.last.x), offsetY := v.offsetY + (p.y - v.last.y), last := p)
  }

  /** One input applied to the view; `hasPhoto` is whether a photo is loaded
      (the touch handlers ignore touches until one is). */
  function Step(v: View, hasPhoto: bool, i: Input): (r: View)
    requires PinchReady(v)
    ensures WellFormedInput(i) ==> PinchReady(r)
    ensures Valid(v) && WellFormedInput(i) ==> Valid(r)
    ensures r.scale != v.scale ==> i.SliderInput? || (i.TouchMove? && v.touchMode == PinchTouch)
    ensures (r.offsetX != v.offsetX || r.offsetY != v.offsetY) ==> i.MouseMove? || i.TouchMove?
    ensures !hasPhoto && (i.TouchStart? || i.TouchMove?) ==> r == v
    ensures i.SliderInput? ==> r.scale == i.value && r.slider == i.value
    ensures i.MouseDown? ==> r.isDragging && r.last == i.at
    ensures i.MouseUp? ==> !r.isDragging
    ensures i.TouchEnd? ==> r.touchMode == NoTouch
    ensures r.isDragging != v.isDragging ==> i.MouseDown? || i.MouseUp?
    ensures r.touchMode != v.touchMode ==> i.TouchStart? || i.TouchEnd?
    ensures i.TouchStart? && i.touches.count != 1 && i.touches.count != 2 ==> r == v
    ensures i.TouchMove? && !(v.touchMode == DragTouch && i.touches.count == 1) && !(v.touchMode == PinchTouch && i.touches.count == 2) ==> r == v
  {
    match i
    case SliderInput(x) => v.(scale := x, slider := x)
    case MouseDown(p) => v.(isDragging := true, last := p)
    case MouseUp => v.(isDragging := false)
    case MouseMove(p) => if v.isDragging then DragTo(v, p) else v
    case TouchStart(t) =>
      if !hasPhoto then v
      else if t.count == 1 then v.(touchMode := DragTouch, last := t.first)
      else if t.count == 2 then v.(touchMode := PinchTouch, startDist := t.spread, startScale := v.scale)
      else v
    case TouchMove(t) =>
      if !hasPhoto then v
      else if v.touchMode == DragTouch && t.count == 1 then DragTo(v, t.first)
      else if v.touchMode == PinchTouch && t.count == 2 then
        var s := PinchScale(v.startScale, v.startDist, t.spread);
        v.(scale := s, slider := s)
      else v
    case TouchEnd => v.(touchMode := NoTouch)
  }

  /** Once the fingers are lifted, touch moves change nothing until the next
      touch start, and mouse moves change nothing once the button is released. */
  lemma MovesAfterReleaseAreInert(v: View, hasPhoto: bool, t: Touches, p: Point)
    requires PinchReady(v)
    ensures var u := Step(v, hasPhoto, TouchEnd);
      Step(u, hasPhoto, TouchMove(t)) == u
    ensures var u := Step(v, hasPhoto, MouseUp);
      Step(u, hasPhoto, MouseMove(p)) == u
  {
  }

  predicate AllWellFormed(inputs: seq<Input>) {
    forall k :: 0 <= k < |inputs| ==> WellFormedInput(inputs[k])
  }

  /** A sequence of inputs applied in order. */
  function Run(v: View, hasPhoto: bool, inputs: seq<Input>): (r: View)
    requires PinchReady(v) && AllWellFormed(inputs)
    ensures PinchReady(r)
    ensures Valid(v) ==> Valid(r)
    decreases |inputs|
  {
    if |inputs| == 0 then v
    else Run(Step(v, hasPhoto, inputs[0]), hasPhoto, inputs[1..])
  }

  function MouseMoves(ps: seq<Point>): (r: seq<Input>)
    ensures |r| == |ps| && AllWellFormed(r)
    ensures forall k :: 0 <= k < |ps| ==> r[k] == MouseMove(ps[k])
  {
    seq(|ps|, k requires 0 <= k < |ps| => MouseMove(ps[k]))
  }

  /** One-finger moves; `spread` is irrelevant with a single touch. */
  function FingerMoves(ps: seq<Point>): (r: seq<Input>)
    ensures |r| == |ps| && AllWellFormed(r)
    ensures forall k :: 0 <= k < |ps| ==> r[k] == TouchMove(Touches(1, ps[k], 0.0))
  {
    seq(|ps|, k requires 0 <= k < |ps| => TouchMove(Touches(1, ps[k], 0.0)))
  }

  /** Two-finger moves with the given finger distances. */
  function PinchMoves(first: Point, spreads: seq<real>): (r: seq<Input>)
    requires forall k :: 0 <= k < |spreads| ==> spreads[k] >= 0.0
    ensures |r| == |spreads| && AllWellFormed(r)
    ensures forall k :: 0 <= k < |spreads| ==> r[k] == TouchMove(Touches(2, first, spreads[k]))
  {
    seq(|spreads|, k requires 0 <= k < |spreads| => TouchMove(Touches(2, first, spreads[k])))
  }

  /** Moves during a mouse drag add up: the pan grows by the distance from the
      anchor to the last position, whatever the path, and the zoom is kept. */
  lemma {:induction false} MouseDragSum(v: View, hasPhoto: bool, ps: seq<Point>)
    requires PinchReady(v) && v.isDragging && |ps| > 0
    ensures var r := Run(v, hasPhoto, MouseMoves(ps));
      && r.offsetX == v.offsetX + (ps[|ps| - 1].x - v.last.x)
      && r.offsetY == v.offsetY + (ps[|ps| - 1].y - v.last.y)
      && r.last == ps[|ps| - 1]
      && r.scale == v.scale && r.isDragging
    decreases |ps|
  {
    var moves := MouseMoves(ps);
    var v1 := Step(v, hasPhoto, moves[0]);
    assert v1 == DragTo(v, ps[0]);
    if |ps| > 1 {
      assert moves[1..] == MouseMoves(ps[1..]);
      MouseDragSum(v1, hasPhoto, ps[1..]);
    }
  }

  /** A mouse press at `p0` followed by moves ending at `pn` pans by `pn - p0`
      and leaves the zoom alone. */
  lemma MouseDragTelescopes(v: View, hasPhoto: bool, p0: Point, ps: seq<Point>)
    requires PinchReady(v) && |ps| > 0
    ensures var r := Run(v, hasPhoto, [MouseDown(p0)] + MouseMoves(ps));
      && r.offsetX == v.offsetX + (ps[|ps| - 1].x - p0.x)
      && r.offsetY == v.offsetY + (ps[|ps| - 1].y - p0.y)
      && r.scale == v.scale
  {
    var inputs := [MouseDown(p0)] + MouseMoves(ps);
    assert inputs[1..] == MouseMoves(ps);
    MouseDragSum(Step(v, hasPhoto, MouseDown(p0)), hasPhoto, ps);
  }

  lemma {:induction false} FingerDragSum(v: View, ps: seq<Point>)
    requires PinchReady(v) && v.touchMode == DragTouch && |ps| > 0
    ensures var r := Run(v, true, FingerMoves(ps));
      && r.offsetX == v.offsetX + (ps[|ps| - 1].x - v.last.x)
      && r.offsetY == v.offsetY + (ps[|ps| - 1].y - v.last.y)
      && r.scale == v.scale && r.touchMode == DragTouch
    decreases |ps|
  {
    var moves := FingerMoves(ps);
    var v1 := Step(v, true, moves[0]);
    assert v1 == DragTo(v, ps[0]);
    if |ps| > 1 {
      assert moves[1..] == FingerMoves(ps[1..]);
      FingerDragSum(v1, ps[1..]);
    }
  }

  /** The same for a one-finger drag once a photo is loaded. */
  lemma FingerDragTelescopes(v: View, p0: Point, ps: seq<Point>)
    requires PinchReady(v) && |ps| > 0
    ensures var r := Run(v, true, [TouchStart(Touches(1, p0, 0.0))] + FingerMoves(ps));
      && r.offsetX == v.offsetX + (ps[|ps| - 1].x - p0.x)
      && r.offsetY == v.offsetY + (ps[|ps| - 1].y - p0.y)
      && r.scale == v.scale
  {
    var inputs := [TouchStart(Touches(1, p0, 0.0))] + FingerMoves(ps);
    assert inputs[1..] == FingerMoves(ps);
    FingerDragSum(Step(v, true, inputs[0]), ps);
  }

  lemma {:induction false} PinchSum(v: View, first: Point, spreads: seq<real>)
    requires PinchReady(v) && v.touchMode == PinchTouch && |spreads| > 0
    requires forall k :: 0 <= k < |spreads| ==> spreads[k] >= 0.0
    ensures var r := Run(v, true, PinchMoves(first, spreads));
      && r.scale == PinchScale(v.startScale, v.startDist, spreads[|spreads| - 1])
      && r.offsetX == v.offsetX && r.offsetY == v.offsetY
      && r.touchMode == PinchTouch && r.startScale == v.startScale && r.startDist == v.startDist
    decreases |spreads|
  {
    var moves := PinchMoves(first, spreads);
    var v1 := Step(v, true, moves[0]);
    if |spreads| > 1 {
      assert moves[1..] == PinchMoves(first, spreads[1..]);
      PinchSum(v1, first, spreads[1..]);
    }
  }

  /** A pinch does not accumulate: after it starts at distance `d0` and zoom
      `s0`, the zoom is `clamp(s0 * d / d0, 1, 4)` for the latest distance `d`,
      whatever distances came between, and the pan is untouched. */
  lemma PinchFollowsLatestSpread(v: View, first: Point, d0: real, spreads: seq<real>)
    requires PinchReady(v) && d0 > 0.0 && |spreads| > 0
    requires forall k :: 0 <= k < |spreads| ==> spreads[k] >= 0.0
    ensures var r := Run(v, true, [TouchStart(Touches(2, first, d0))] + PinchMoves(first, spreads));
      && r.scale == PinchScale(v.scale, d0, spreads[|spreads| - 1])
      && r.offsetX == v.offsetX && r.offsetY == v.offsetY
  {
    var inputs := [TouchStart(Touches(2, first, d0))] + PinchMoves(first, spreads);
    var v1 := Step(v, true, inputs[0]);
    assert v1 == v.(touchMode := PinchTouch, startDist := d0, startScale := v.scale);
    assert inputs[1..] == PinchMoves(first, spreads);
    assert Run(v, true, inputs) == Run(v1, true, PinchMoves(first, spreads));
    PinchSum(v1, first, spreads);
  }
}

=== FILE: invite.dfy ===
/**
 The invitation as the generate handler composes it: the committed square
 clipped into the face circle, and the personalised message wrapped, shrunk to
 fit and stacked on the rotated board. Only the numbers handed to the canvas
 are modelled.
 */
module Invite {
  import opened Strings
  import opened Wrap
  import opened Geometry
  import opened Fit
  import opened Crop

  /** The face circle on the background. */
  const FaceCentre: Point := Point(256.0, 585.0)
  const FaceRadius: real := 86.0

  /** The fixed part of the message, word by word. */
  const MessageWords: seq<string> :=
    ["invites", "you", "to", "join", "Mahashivratri", "Celebrations", "in", "Kolkata"]

  /** `${name} invites you to join Mahashivratri Celebrations in Kolkata`. */
  function InviteText(name: string): string {
    name + " " + MessageText
  }

  /** Where `drawCircularFromSquare` draws the square: stretched over the
      bounding box of the circle it is clipped to. */
  function CircleBox(centre: Point, radius: real): (r: Rect)
    requires radius > 0.0
    ensures r.w == r.h == 2.0 * radius
    ensures r.x + r.w / 2.0 == centre.x && r.y + r.h / 2.0 == centre.y
  {
    Rect(centre.x - radius, centre.y - radius, radius * 2.0, radius * 2.0)
  }

  function FaceBox(): Rect {
    CircleBox(FaceCentre, FaceRadius)
  }

  /** Where a point of the committed square lands on the invitation. */
  function SquareToInvite(sq: Square, q: Point): Point
    requires sq.width > 0 && sq.height > 0
  {
    var box := FaceBox();
    Point(box.x + q.x * (box.w / sq.width as real), box.y + q.y * (box.h / sq.height as real))
  }

  /** Everything inside the crop guide ends up inside the face circle: with a
      square crop canvas, the guide (radius 0.36 of the width) maps onto a circle
      of radius 0.72 of the face radius around the face centre. */
  lemma GuideLandsInsideFace(c: Canvas, p: Photo, v: Gesture.View, q: Point)
    requires Decoded(p) && c.width == c.height && c.width > 0
    requires var g := DrawCropPreview(c, Options.Some(p), v).value;
      Sq(q.x - g.guideCentre.x) + Sq(q.y - g.guideCentre.y) <= Sq(g.guideRadius)
    ensures var sq := MakeCroppedSquare(c, p, v);
            var t := SquareToInvite(sq, q);
      Sq(t.x - FaceCentre.x) + Sq(t.y - FaceCentre.y) <= Sq(FaceRadius)
  {
    var w := c.width as real;
    var k := 2.0 * FaceRadius / w;
    var sq := MakeCroppedSquare(c, p, v);
    var t := SquareToInvite(sq, q);
    var dx := q.x - w / 2.0;
    var dy := q.y - w / 2.0;
    assert t.x - FaceCentre.x == k * dx by {
      assert t.x == (FaceCentre.x - FaceRadius) + q.x * k;
      assert k * (w / 2.0) == FaceRadius;
    }
    assert t.y - FaceCentre.y == k * dy by {
      assert t.y == (FaceCentre.y - FaceRadius) + q.y * k;
      assert k * (w / 2.0) == FaceRadius;
    }
    ScaledDisc(k, dx, dy, w * GuideRatio);
    assert k * (w * GuideRatio) == 2.0 * FaceRadius * GuideRatio;
  }

  function Sq(x: real): real { x * x }

  /** Scaling a point of a disc scales the disc. */
  lemma ScaledDisc(k: real, dx: real, dy: real, radius: real)
    requires Sq(dx) + Sq(dy) <= Sq(radius)
    ensures Sq(k * dx) + Sq(k * dy) <= Sq(k * radius)
  {
    assert Sq(k * dx) + Sq(k * dy) == Sq(k) * (Sq(dx) + Sq(dy));
    assert Sq(k * radius) == Sq(k) * Sq(radius);
    assert Sq(k) >= 0.0;
  }

  /** The numbers of the composed invitation. */
  datatype Invitation = Invitation(
    name: string,           // the trimmed name
    crop: Square,           // the committed square, drawn into `face`
    face: Rect,
    fontSize: int,          // the font size the shrink loop settled on
    lines: seq<string>,     // the wrapped message
    lineHeight: int,
    text: seq<TextDraw>)    // the `fillText` calls, in the board's rotated frame

  /** The body of the generate handler after its guard. The font size is the
      largest of 38, 36, ..., 26 at which the message wraps into at most four
      lines, or 26 when none does; the lines are the message's full wrap at that
      size; each is drawn once, in order, one rounded line height apart. */
  function Compose(measure: SizedMeasure, name: string, crop: Square): (r: Invitation)
    ensures r.name == name && r.crop == crop
    ensures r.face == CircleBox(FaceCentre, FaceRadius)
    ensures Reachable(r.fontSize) && r.lines == LinesAt(measure, InviteText(name), r.fontSize)
    ensures |r.lines| <= MaxLines || r.fontSize == MinFontSize
    ensures forall g :: r.fontSize < g && Reachable(g) ==> |LinesAt(measure, InviteText(name), g)| > MaxLines
    ensures (r.lineHeight as real) - 0.5 <= (r.fontSize as real) * 1.2 < (r.lineHeight as real) + 0.5
    ensures |r.text| == |r.lines|
    ensures forall k :: 0 <= k < |r.text| ==> r.text[k].text == r.lines[k] && r.text[k].x == 0.0
    ensures forall k :: 0 <= k < |r.text| - 1 ==> r.text[k + 1].y - r.text[k].y == r.lineHeight as real
    ensures forall k :: 0 <= k < |r.text| ==> r.text[k].y + r.text[|r.text| - 1 - k].y == 2.0 * TextBias
  {
    var fitted := FitText(measure, InviteText(name));
    var lineHeight := LineHeight(fitted.fontSize);
    Invitation(name, crop, FaceBox(), fitted.fontSize, fitted.lines, lineHeight,
               LayoutText(fitted.lines, lineHeight))
  }

  lemma MessageWordsAreWords()
    ensures AllWords(MessageWords)
  {
    var ws := MessageWords;
    forall k | 0 <= k < |ws|
      ensures IsWord(ws[k])
    {
      var w := ws[k];
      forall j | 0 <= j < |w|
        ensures !IsSpace(w[j])
      {
        assert 'A' <= w[j] <= 'z';
      }
    }
  }

  /** The fixed tail of the message, "invites you to join Mahashivratri
      Celebrations in Kolkata": its words joined by single spaces. */
  const MessageText: string := Join(MessageWords)

  /** The message's words are the name's words followed by the fixed words. */
  lemma InviteTextWords(name: string)
    ensures Tokens(InviteText(name)) == Tokens(name) + MessageWords
  {
    MessageWordsAreWords();
    TokensAppend(name, MessageText);
    TokensJoin(MessageWords);
  }

  /** The invitation shows every word of the name and then the fixed message, in
      order, none dropped or broken; each line fits the board's text width or is
      a single word; and when the text fits in four lines the block lies inside
      the board's clip. */
  lemma ComposedTextIsComplete(measure: SizedMeasure, name: string, crop: Square)
    ensures var r := Compose(measure, name, crop);
      && Unwrap(r.lines) == Tokens(name) + MessageWords
      && 0 < |r.lines| <= |Tokens(name)| + |MessageWords|
      && (forall i :: 0 <= i < |r.lines| ==>
            Fits(s => measure(r.fontSize, s), MaxTextWidth as real, r.lines[i]))
      && (|r.lines| <= MaxLines ==>
            && BoardClip().y <= r.text[0].y - r.lineHeight as real / 2.0
            && r.text[|r.text| - 1].y + r.lineHeight as real / 2.0 <= BoardClip().Bottom())
      && (forall i :: 0 <= i < |r.text| && 0.0 <= measure(r.fontSize, r.lines[i]) <= MaxTextWidth as real ==>
            && BoardClip().x + 5.0 <= r.text[i].x - measure(r.fontSize, r.lines[i]) / 2.0
            && r.text[i].x + measure(r.fontSize, r.lines[i]) / 2.0 <= BoardClip().Right() - 5.0)
  {
    var r := Compose(measure, name, crop);
    InviteTextWords(name);
    WrappedLinesFit(s => measure(r.fontSize, s), InviteText(name), MaxTextWidth as real);
    if |r.lines| <= MaxLines {
      TextBlockInsideClip(r.fontSize, r.lines);
    }
    LinesInsideClip(measure, r);
  }

  /** Every line of a composed invitation that is no wider than the wrap limit
      is drawn centred at x = 0, so it lies inside the clip horizontally. */
  lemma LinesInsideClip(measure: SizedMeasure, r: Invitation)
    requires |r.text| == |r.lines|
    requires forall i :: 0 <= i < |r.text| ==> r.text[i].x == 0.0
    ensures forall i :: 0 <= i < |r.text| && 0.0 <= measure(r.fontSize, r.lines[i]) <= MaxTextWidth as real ==>
      && BoardClip().x + 5.0 <= r.text[i].x - measure(r.fontSize, r.lines[i]) / 2.0
      && r.text[i].x + measure(r.fontSize, r.lines[i]) / 2.0 <= BoardClip().Right() - 5.0
  {
    forall i | 0 <= i < |r.text| && 0.0 <= measure(r.fontSize, r.lines[i]) <= MaxTextWidth as real
      ensures BoardClip().x + 5.0 <= r.text[i].x - measure(r.fontSize, r.lines[i]) / 2.0
      ensures r.text[i].x + measure(r.fontSize, r.lines[i]) / 2.0 <= BoardClip().Right() - 5.0
    {
      CentredLineInsideClip(measure(r.fontSize, r.lines[i]));
    }
  }
}

=== FILE: options.dfy ===
/** An optional value, for the script's `null`-or-object variables. */
module Options {

  datatype Option<+T> = None | Some(value: T)
}

=== FILE: session.dfy ===
/**
 The page's session: which photo is loaded, the view, the committed crop, the
 last invitation, and whether the generate and download buttons are enabled.
 Every event handler of the script is one transition; the pipeline order
 photo, crop, generate, download is an invariant of the transitions.
 */
module Session {
  import opened Options
  import opened Strings
  import opened Geometry
  import Gesture
  import opened Fit
  import opened Crop
  import opened Invite

  datatype State = State(
    canvas: Canvas,                 // the crop canvas's size
    photo: Option<Photo>,           // `srcImg`
    view: Gesture.View,             // `scale`, `offsetX`, `offsetY` and the pointer bookkeeping
    cropped: Option<Square>,        // `croppedSquare`
    generateEnabled: bool,          // `!generateBtn.disabled`
    downloadEnabled: bool,          // `!downloadBtn.disabled`
    output: Option<Invitation>)     // what `outCanvas` holds

  datatype Event =
    | PhotoChosen(file: Option<Photo>)   // the file input changed; None: no file, or it did not decode
    | Pointer(input: Gesture.Input)      // slider, mouse or touch input on the crop view
    | UseCropClick(nameField: string)    // "use crop" clicked, with the name field's text
    | GenerateClick(nameField: string)   // "generate" clicked, with the name field's text

  /** Events the browser can deliver: decoded photos have a size, and pointer
      inputs are well formed. */
  predicate WellFormedEvent(e: Event) {
    match e
    case PhotoChosen(f) => f.Some? ==> Decoded(f.value)
    case Pointer(i) => Gesture.WellFormedInput(i)
    case _ => true
  }

  /** The session invariant. Generate is enabled only with a crop committed from
      the photo now loaded; download is enabled only once an invitation exists. */
  predicate Valid(s: State) {
    && ValidCanvas(s.canvas)
    && (s.photo.Some? ==> Decoded(s.photo.value))
    && Gesture.Valid(s.view)
    && (s.generateEnabled ==> s.photo.Some? && s.cropped.Some? && s.cropped.value.source == s.photo.value)
    && (s.downloadEnabled ==> s.output.Some?)
  }

  /** The page as loaded: no photo, no pan, the zoom at the slider's value, and
      both buttons disabled. */
  function Init(canvas: Canvas, slider: real): (s: State)
    requires ValidCanvas(canvas) && Gesture.MinScale <= slider <= Gesture.MaxScale
    ensures Valid(s)
    ensures s.canvas == canvas && s.photo.None? && s.cropped.None? && s.output.None?
    ensures s.view.offsetX == 0.0 && s.view.offsetY == 0.0 && s.view.scale == slider
    ensures !s.view.isDragging && s.view.touchMode == Gesture.NoTouch
    ensures !s.generateEnabled && !s.downloadEnabled
  {
    State(canvas, None,
          Gesture.View(slider, 0.0, 0.0, slider, false, Point(0.0, 0.0), Gesture.NoTouch, 0.0, 1.0),
          None, false, false, None)
  }

  /** The photo input's change handler. */
  function OnPhotoChosen(s: State, file: Option<Photo>): State {
    if file.None? then s
    else
      s.(photo := file,
         view := s.view.(scale := s.view.slider, offsetX := 0.0, offsetY := 0.0),
         generateEnabled := false,
         downloadEnabled := false)
  }

  /** The "use crop" click handler. */
  function OnUseCrop(s: State, nameField: string): State
    requires s.photo.Some? ==> Decoded(s.photo.value)
  {
    var name := Trim(nameField);
    if name == "" then s
    else if s.photo.None? then s
    else s.(cropped := Some(MakeCroppedSquare(s.canvas, s.photo.value, s.view)), generateEnabled := true)
  }

  /** The generate click handler. */
  function OnGenerate(measure: SizedMeasure, s: State, nameField: string): State {
    var name := Trim(nameField);
    if name == "" || s.cropped.None? then s
    else s.(output := Some(Compose(measure, name, s.cropped.value)), downloadEnabled := true)
  }

  /** One event. A click on a disabled generate button is not delivered. */
  function Step(measure: SizedMeasure, s: State, e: Event): (r: State)
    requires Valid(s) && WellFormedEvent(e)
    ensures Valid(r)
    ensures r.canvas == s.canvas
    ensures r.photo != s.photo ==> e.PhotoChosen?
    ensures r.cropped != s.cropped ==> e.UseCropClick?
    ensures r.output != s.output ==> e.GenerateClick?
    ensures r.generateEnabled != s.generateEnabled ==> e.PhotoChosen? || e.UseCropClick?
    ensures r.downloadEnabled != s.downloadEnabled ==> e.PhotoChosen? || e.GenerateClick?
    ensures e.Pointer? ==> r == s.(view := Gesture.Step(s.view, s.photo.Some?, e.input))
  {
    match e
    case PhotoChosen(f) => OnPhotoChosen(s, f)
    case Pointer(i) => s.(view := Gesture.Step(s.view, s.photo.Some?, i))
    case UseCropClick(f) => OnUseCrop(s, f)
    case GenerateClick(f) => if s.generateEnabled then OnGenerate(measure, s, f) else s
  }

  predicate AllWellFormed(es: seq<Event>) {
    forall k :: 0 <= k < |es| ==> WellFormedEvent(es[k])
  }

  /** Events handled in order. */
  function Run(measure: SizedMeasure, s: State, es: seq<Event>): (r: State)
    requires Valid(s) && AllWellFormed(es)
    ensures Valid(r)
    decreases |es|
  {
    if |es| == 0 then s else Run(measure, Step(measure, s, es[0]), es[1..])
  }

  /** A new photo resets the pan, takes the zoom from the slider, and disables
      both buttons; the previous crop is kept but can no longer be used. */
  lemma NewPhotoResetsView(measure: SizedMeasure, s: State, p: Photo)
    requires Valid(s) && Decoded(p)
    ensures var r := Step(measure, s, PhotoChosen(Some(p)));
      && r.photo == Some(p)
      && r.view.offsetX == 0.0 && r.view.offsetY == 0.0
      && r.view.scale == s.view.slider
      && !r.generateEnabled && !r.downloadEnabled
      && r.cropped == s.cropped && r.output == s.output
  {
  }

  /** A change of the file input without a decoded photo changes nothing. */
  lemma NoPhotoNoChange(measure: SizedMeasure, s: State)
    requires Valid(s)
    ensures Step(measure, s, PhotoChosen(None)) == s
  {
  }

  /** "Use crop" with a blank name, or before a photo is loaded, changes nothing. */
  lemma UseCropRefused(measure: SizedMeasure, s: State, nameField: string)
    requires Valid(s)
    requires (forall k :: 0 <= k < |nameField| ==> IsSpace(nameField[k])) || s.photo.None?
    ensures Step(measure, s, UseCropClick(nameField)) == s
  {
    TrimEmpty(nameField);
  }

  /** "Use crop" with a name and a photo commits exactly what the preview shows
      and enables generate. */
  lemma UseCropCommits(measure: SizedMeasure, s: State, nameField: string)
    requires Valid(s) && s.photo.Some? && Trim(nameField) != ""
    ensures var r := Step(measure, s, UseCropClick(nameField));
      && r.cropped.Some? && r.cropped.value.source == s.photo.value
      && DrawCropPreview(s.canvas, s.photo, s.view).value.image == r.cropped.value.image
      && r.generateEnabled
      && r.view == s.view && r.photo == s.photo && r.output == s.output
      && r.downloadEnabled == s.downloadEnabled
  {
    SquareMatchesPreview(s.canvas, s.photo.value, s.view);
  }

  /** Generate with a blank name, or without a committed crop, changes nothing. */
  lemma GenerateRefused(measure: SizedMeasure, s: State, nameField: string)
    requires Valid(s)
    requires (forall k :: 0 <= k < |nameField| ==> IsSpace(nameField[k])) || s.cropped.None?
    ensures Step(measure, s, GenerateClick(nameField)) == s
  {
    TrimEmpty(nameField);
  }

  /** A successful generate composes the invitation from the trimmed name and
      the committed crop, and enables download. */
  lemma GenerateEnablesDownload(measure: SizedMeasure, s: State, nameField: string)
    requires Valid(s) && s.generateEnabled && Trim(nameField) != ""
    ensures var r := Step(measure, s, GenerateClick(nameField));
      && r.output == Some(Compose(measure, Trim(nameField), s.cropped.value))
      && r.output.value.crop.source == s.photo.value
      && r.downloadEnabled && r.generateEnabled
      && r.photo == s.photo && r.cropped == s.cropped && r.view == s.view
  {
    var inv := Compose(measure, Trim(nameField), s.cropped.value);
    assert Step(measure, s, GenerateClick(nameField)) == s.(output := Some(inv), downloadEnabled := true);
  }

  /** After a new photo, generate does nothing until the crop is committed again. */
  lemma NewPhotoNeedsNewCrop(measure: SizedMeasure, s: State, p: Photo, nameField: string)
    requires Valid(s) && Decoded(p)
    ensures var r := Step(measure, s, PhotoChosen(Some(p)));
      Step(measure, r, GenerateClick(nameField)) == r
  {
  }

  /** In every session reachable from the page as loaded, an enabled generate
      button means a crop of the current photo was committed, and an enabled
      download button means an invitation was composed. */
  lemma {:induction false} PipelineOrder(measure: SizedMeasure, canvas: Canvas, slider: real, es: seq<Event>)
    requires ValidCanvas(canvas) && Gesture.MinScale <= slider <= Gesture.MaxScale
    requires AllWellFormed(es)
    ensures var r := Run(measure, Init(canvas, slider), es);
      && (r.generateEnabled ==> r.photo.Some? && r.cropped.Some? && r.cropped.value.source == r.photo.value)
      && (r.downloadEnabled ==> r.output.Some?)
      && Gesture.MinScale <= r.view.scale <= Gesture.MaxScale
      && r.view.slider == r.view.scale
  {
  }

  /** Pointer inputs as session events. */
  function Pointers(inputs: seq<Gesture.Input>): (r: seq<Event>)
    ensures |r| == |inputs|
    ensures forall k :: 0 <= k < |inputs| ==> r[k] == Pointer(inputs[k])
  {
    seq(|inputs|, k requires 0 <= k < |inputs| => Pointer(inputs[k]))
  }

  /** A run of pointer events is the gesture run on the view: the photo, the
      crop, the invitation and both buttons stay as they were. */
  lemma {:induction false} PointerRun(measure: SizedMeasure, s: State, inputs: seq<Gesture.Input>)
    requires Valid(s) && Gesture.AllWellFormed(inputs)
    ensures AllWellFormed(Pointers(inputs))
    ensures Run(measure, s, Pointers(inputs)) == s.(view := Gesture.Run(s.view, s.photo.Some?, inputs))
    decreases |inputs|
  {
    var es := Pointers(inputs);
    if |inputs| > 0 {
      var s1 := Step(measure, s, es[0]);
      assert s1 == s.(view := Gesture.Step(s.view, s.photo.Some?, inputs[0]));
      assert es[1..] == Pointers(inputs[1..]);
      assert Gesture.AllWellFormed(inputs[1..]) by {
        forall k | 0 <= k < |inputs| - 1
          ensures Gesture.WellFormedInput(inputs[1..][k])
        {
          assert inputs[1..][k] == inputs[k + 1];
        }
      }
      PointerRun(measure, s1, inputs[1..]);
    }
  }

  /** On the page, a mouse press at `p0` followed by moves ending at `pn` pans
      the crop view by `pn - p0`, keeps the zoom, and leaves the photo, the
      committed crop, the invitation and both buttons untouched. */
  lemma PageMouseDrag(measure: SizedMeasure, s: State, p0: Point, ps: seq<Point>)
    requires Valid(s) && |ps| > 0
    ensures var inputs := [Gesture.MouseDown(p0)] + Gesture.MouseMoves(ps);
            var r := Run(measure, s, Pointers(inputs));
      && r.view.offsetX == s.view.offsetX + (ps[|ps| - 1].x - p0.x)
      && r.view.offsetY == s.view.offsetY + (ps[|ps| - 1].y - p0.y)
      && r.view.scale == s.view.scale
      && r.photo == s.photo && r.cropped == s.cropped && r.output == s.output
      && r.generateEnabled == s.generateEnabled && r.downloadEnabled == s.downloadEnabled
  {
    var inputs := [Gesture.MouseDown(p0)] + Gesture.MouseMoves(ps);
    assert Gesture.AllWellFormed(inputs) by {
      forall k | 0 <= k < |inputs|
        ensures Gesture.WellFormedInput(inputs[k])
      {
        if k > 0 {
          assert inputs[k] == Gesture.MouseMoves(ps)[k - 1];
        }
      }
    }
    PointerRun(measure, s, inputs);
    Gesture.MouseDragTelescopes(s.view, s.photo.Some?, p0, ps);
  }
}

=== FILE: strings.dfy ===
/**
 Text helpers the invite generator relies on: JavaScript's notion of white
 space, splitting a string at white space, joining words with single spaces,
 the white-space tokenisation of `text.split(/\s+/)`, and `String.prototype.trim`.
 */
module Strings {

  /** The characters that both `String.prototype.trim` and the regular-expression
      class `\s` treat as white space (ECMAScript WhiteSpace and LineTerminator). */
  predicate IsSpace(c: char) {
    || c == ' ' || c == '\t' || c == '\n' || c == '\r'
    || c == '\U{000B}' || c == '\U{000C}' || c == '\U{00A0}' || c == '\U{1680}'
    || ('\U{2000}' <= c <= '\U{200A}')
    || c == '\U{2028}' || c == '\U{2029}' || c == '\U{202F}' || c == '\U{205F}'
    || c == '\U{3000}' || c == '\U{FEFF}'
  }

  predicate NoSpace(s: string) {
    forall k :: 0 <= k < |s| ==> !IsSpace(s[k])
  }

  /** A word: a non-empty run of non-white-space characters. */
  predicate IsWord(w: string) {
    |w| > 0 && NoSpace(w)
  }

  predicate AllWords(ws: seq<string>) {
    forall k :: 0 <= k < |ws| ==> IsWord(ws[k])
  }

  /** The pieces between white-space characters, as `s.split(/\s/)` returns them:
      one more piece than there are white-space characters, empty pieces kept. */
  function Split(s: string): (r: seq<string>)
    ensures |r| >= 1
    ensures forall k :: 0 <= k < |r| ==> NoSpace(r[k])
    decreases |s|
  {
    if |s| == 0 then [""]
    else
      var rest := Split(s[1..]);
      if IsSpace(s[0]) then [""] + rest
      else [[s[0]] + rest[0]] + rest[1..]
  }

  /** The words joined by single spaces, as `line + " " + w` builds a line. */
  function Join(ws: seq<string>): string {
    if |ws| == 0 then ""
    else if |ws| == 1 then ws[0]
    else ws[0] + " " + Join(ws[1..])
  }

  lemma {:induction false} SplitAppend(a: string, b: string)
    ensures Split(a + " " + b) == Split(a) + Split(b)
    decreases |a|
  {
    if |a| == 0 {
      assert a + " " + b == [' '] + b;
      assert ([' '] + b)[1..] == b;
    } else {
      var t := a + " " + b;
      assert t[0] == a[0];
      assert t[1..] == a[1..] + " " + b;
      SplitAppend(a[1..], b);
    }
  }

  lemma {:induction false} SplitNoSpace(w: string)
    requires NoSpace(w)
    ensures Split(w) == [w]
    decreases |w|
  {
    if |w| > 0 {
      SplitNoSpace(w[1..]);
      assert [w[0]] + w[1..] == w;
    }
  }

  lemma {:induction false} JoinSnoc(ws: seq<string>, w: string)
    requires |ws| > 0
    ensures Join(ws + [w]) == Join(ws) + " " + w
    decreases |ws|
  {
    if |ws| > 1 {
      assert (ws + [w])[1..] == ws[1..] + [w];
      JoinSnoc(ws[1..], w);
    }
  }

  /** Splitting the words' join gives the words back. */
  lemma {:induction false} SplitJoin(ws: seq<string>)
    requires |ws| > 0
    requires forall k :: 0 <= k < |ws| ==> NoSpace(ws[k])
    ensures Split(Join(ws)) == ws
    decreases |ws|
  {
    SplitNoSpace(ws[0]);
    if |ws| > 1 {
      SplitJoin(ws[1..]);
      SplitAppend(ws[0], Join(ws[1..]));
    }
  }

  /** Joining the pieces of a string whose only white space is the plain space
      gives the string back. */
  lemma {:induction false} JoinSplit(s: string)
    requires forall k :: 0 <= k < |s| ==> IsSpace(s[k]) ==> s[k] == ' '
    ensures Join(Split(s)) == s
    decreases |s|
  {
    if |s| > 0 {
      var rest := Split(s[1..]);
      JoinSplit(s[1..]);
      if IsSpace(s[0]) {
        assert Split(s)[1..] == rest;
        assert s == " " + s[1..];
      } else {
        var r := Split(s);
        if |rest| == 1 {
          assert s == [s[0]] + s[1..];
        } else {
          assert r[1..] == rest[1..];
          assert Join(rest) == rest[0] + " " + Join(rest[1..]);
          assert s == [s[0]] + s[1..];
        }
      }
    }
  }

  /** How many white-space characters `s` holds. */
  function SpaceCount(s: string): nat {
    if |s| == 0 then 0 else (if IsSpace(s[0]) then 1 else 0) + SpaceCount(s[1..])
  }

  /** `s` with its white-space characters removed. */
  function Strip(s: string): string {
    if |s| == 0 then "" else (if IsSpace(s[0]) then "" else [s[0]]) + Strip(s[1..])
  }

  /** The pieces written one after another. */
  function Concat(ps: seq<string>): string {
    if |ps| == 0 then "" else ps[0] + Concat(ps[1..])
  }

  /** Whatever the white space in `s`: every white-space character separates two
      pieces, and the pieces hold exactly the other characters, in order. */
  lemma {:induction false} SplitPieces(s: string)
    ensures |Split(s)| == 1 + SpaceCount(s)
    ensures Concat(Split(s)) == Strip(s)
    decreases |s|
  {
    if |s| > 0 {
      var rest := Split(s[1..]);
      SplitPieces(s[1..]);
      var r := Split(s);
      if IsSpace(s[0]) {
        assert r == [""] + rest;
        assert r[1..] == rest;
      } else {
        assert r == [[s[0]] + rest[0]] + rest[1..];
        assert r[1..] == rest[1..];
        assert Concat(rest) == rest[0] + Concat(rest[1..]);
        assert Concat(r) == ([s[0]] + rest[0]) + Concat(rest[1..]);
      }
    }
  }

  /** The non-empty pieces, in order. */
  function NonEmpty(ps: seq<string>): seq<string> {
    if |ps| == 0 then []
    else (if ps[0] == "" then [] else [ps[0]]) + NonEmpty(ps[1..])
  }

  lemma {:induction false} NonEmptyAppend(a: seq<string>, b: seq<string>)
    ensures NonEmpty(a + b) == NonEmpty(a) + NonEmpty(b)
    decreases |a|
  {
    if |a| > 0 {
      var head: seq<string> := if a[0] == "" then [] else [a[0]];
      assert (a + b)[0] == a[0];
      assert (a + b)[1..] == a[1..] + b;
      NonEmptyAppend(a[1..], b);
      calc {
        NonEmpty(a + b);
        head + NonEmpty(a[1..] + b);
        head + (NonEmpty(a[1..]) + NonEmpty(b));
        (head + NonEmpty(a[1..])) + NonEmpty(b);
        NonEmpty(a) + NonEmpty(b);
      }
    } else {
      assert a + b == b;
    }
  }

  lemma {:induction false} NonEmptyWords(ps: seq<string>)
    requires forall k :: 0 <= k < |ps| ==> NoSpace(ps[k])
    ensures AllWords(NonEmpty(ps))
    decreases |ps|
  {
    if |ps| > 0 {
      NonEmptyWords(ps[1..]);
    }
  }

  lemma {:induction false} NonEmptyOfWords(ws: seq<string>)
    requires AllWords(ws)
    ensures NonEmpty(ws) == ws
    decreases |ws|
  {
    if |ws| > 0 {
      NonEmptyOfWords(ws[1..]);
    }
  }

  /** The words of `s`: what `s.split(/\s+/)` returns once the empty tokens that
      leading or trailing white space produces are dropped. */
  function Tokens(s: string): (r: seq<string>)
    ensures AllWords(r)
  {
    NonEmptyWords(Split(s));
    NonEmpty(Split(s))
  }

  /** Tokenising joined words gives the words back. */
  lemma TokensJoin(ws: seq<string>)
    requires AllWords(ws)
    ensures Tokens(Join(ws)) == ws
  {
    if |ws| > 0 {
      SplitJoin(ws);
      NonEmptyOfWords(ws);
    }
  }

  /** A single space between two texts separates their words. */
  lemma TokensAppend(a: string, b: string)
    ensures Tokens(a + " " + b) == Tokens(a) + Tokens(b)
  {
    SplitAppend(a, b);
    NonEmptyAppend(Split(a), Split(b));
  }

  /** `s` without its leading white space. */
  function TrimStart(s: string): (r: string)
    ensures |r| <= |s| && r == s[|s| - |r|..]
    ensures forall k :: 0 <= k < |s| - |r| ==> IsSpace(s[k])
    ensures r == "" || !IsSpace(r[0])
    decreases |s|
  {
    if |s| > 0 && IsSpace(s[0]) then TrimStart(s[1..]) else s
  }

  /** `s` without its trailing white space. */
  function TrimEnd(s: string): (r: string)
    ensures |r| <= |s| && r == s[..|r|]
    ensures forall k :: |r| <= k < |s| ==> IsSpace(s[k])
    ensures r == "" || !IsSpace(r[|r| - 1])
    decreases |s|
  {
    if |s| > 0 && IsSpace(s[|s| - 1]) then TrimEnd(s[..|s| - 1]) else s
  }

  /** How many white-space characters `s` starts with. */
  function Lead(s: string): nat {
    |s| - |TrimStart(s)|
  }

  /** `String.prototype.trim`: the middle of `s` between its leading and trailing
      white space. */
  function Trim(s: string): (r: string)
    ensures Lead(s) + |r| <= |s| && r == s[Lead(s)..Lead(s) + |r|]
    ensures forall k :: 0 <= k < Lead(s) ==> IsSpace(s[k])
    ensures forall k :: Lead(s) + |r| <= k < |s| ==> IsSpace(s[k])
    ensures r == "" || (!IsSpace(r[0]) && !IsSpace(r[|r| - 1]))
  {
    TrimEnd(TrimStart(s))
  }

  /** The trimmed text is empty exactly when the input is all white space. */
  lemma TrimEmpty(s: string)
    ensures Trim(s) == "" <==> forall k :: 0 <= k < |s| ==> IsSpace(s[k])
  {
  }

  /** Trimming twice trims nothing more. */
  lemma TrimIdempotent(s: string)
    ensures Trim(Trim(s)) == Trim(s)
  {
  }
}

=== FILE: wrap.dfy ===
/**
 The greedy word wrap of `wrapTextLines`: words are added to the current line
 while the measured width of the extended line stays within the limit; a word
 that does not fit closes the line and starts the next one. A word wider than
 the limit on its own is never broken.
 */
module Wrap {
  import opened Strings

  /** The width the canvas reports for a string in the current font
      (`ctx.measureText(s).width`); any function will do. */
  type Measure = string -> real

  /** Closes the current line, if it holds anything (`if (line) lines.push(line)`). */
  function Flush(lines: seq<string>, line: string): seq<string> {
    if line != "" then lines + [line] else lines
  }

  /** The wrapping loop from the state (`lines`, `line`) over the remaining words. */
  function WrapFrom(measure: Measure, maxWidth: real, words: seq<string>,
                    lines: seq<string>, line: string): seq<string>
    decreases |words|
  {
    if |words| == 0 then Flush(lines, line)
    else
      var w := words[0];
      var test := if line != "" then line + " " + w else w;
      if measure(test) <= maxWidth then WrapFrom(measure, maxWidth, words[1..], lines, test)
      else WrapFrom(measure, maxWidth, words[1..], Flush(lines, line), w)
  }

  /** `wrapTextLines(ctx, text, maxWidth)`: the greedy wrap of the text's words
      (`IsGreedyWrap` below states what that means without the loop). */
  function WrapTextLines(measure: Measure, text: string, maxWidth: real): (r: seq<string>)
    ensures IsGreedyWrap(measure, maxWidth, Tokens(text), r)
  {
    WrapFromInvariant(measure, maxWidth, Tokens(text), [], "");
    WrapFrom(measure, maxWidth, Tokens(text), [], "")
  }

  // ---------------------------------------------------------------------------
  // What a greedy wrap is, stated without the loop

  /** The words held by a sequence of lines, read line by line. */
  function Unwrap(lines: seq<string>): seq<string> {
    if |lines| == 0 then [] else Unwrap(lines[..|lines| - 1]) + Split(lines[|lines| - 1])
  }

  function FirstWord(line: string): string {
    Split(line)[0]
  }

  /** A line is its words joined by single spaces. */
  predicate WellFormedLine(line: string) {
    line != "" && Join(Split(line)) == line
  }

  /** Every line is within the width limit, or is a single word. */
  predicate Fits(measure: Measure, maxWidth: real, line: string) {
    measure(line) <= maxWidth || |Split(line)| == 1
  }

  /** Every longer-than-one-word prefix of the line was within the width limit
      when it was built: a word joins a line only if the line still fits. */
  predicate PrefixesFit(measure: Measure, maxWidth: real, line: string) {
    var ws := Split(line);
    forall k :: 2 <= k <= |ws| ==> measure(Join(ws[..k])) <= maxWidth
  }

  /** The next line's first word would not have fitted on this line. */
  predicate Overflows(measure: Measure, maxWidth: real, line: string, next: string) {
    measure(line + " " + FirstWord(next)) > maxWidth
  }

  /** Lines are closed only on overflow. */
  predicate Greedy(measure: Measure, maxWidth: real, lines: seq<string>) {
    forall i :: 0 <= i < |lines| - 1 ==> Overflows(measure, maxWidth, lines[i], lines[i + 1])
  }

  /** `lines` is the greedy wrap of `words`: it holds exactly those words in order,
      each line is built by adding words while they fit, and each line is closed
      only when the next word does not fit. */
  predicate IsGreedyWrap(measure: Measure, maxWidth: real, words: seq<string>, lines: seq<string>) {
    && Unwrap(lines) == words
    && (forall i :: 0 <= i < |lines| ==> WellFormedLine(lines[i]) && PrefixesFit(measure, maxWidth, lines[i]))
    && Greedy(measure, maxWidth, lines)
  }

  // ---------------------------------------------------------------------------
  // The loop computes the greedy wrap

  /** The words still owed by the current line. */
  function Pending(line: string): seq<string> {
    if line == "" then [] else Split(line)
  }

  /** What holds of the loop state before each word. */
  predicate LoopState(measure: Measure, maxWidth: real, lines: seq<string>, line: string) {
    && (line == "" ==> lines == [])
    && (line != "" ==> WellFormedLine(line) && PrefixesFit(measure, maxWidth, line))
    && (line != "" && |lines| > 0 ==> Overflows(measure, maxWidth, lines[|lines| - 1], line))
    && (forall i :: 0 <= i < |lines| ==> WellFormedLine(lines[i]) && PrefixesFit(measure, maxWidth, lines[i]))
    && Greedy(measure, maxWidth, lines)
  }

  lemma UnwrapSnoc(lines: seq<string>, line: string)
    ensures Unwrap(lines + [line]) == Unwrap(lines) + Split(line)
  {
    assert (lines + [line])[..|lines|] == lines;
  }

  /** Starting a line with a single word. */
  lemma StartLine(measure: Measure, maxWidth: real, w: string)
    requires IsWord(w)
    ensures Split(w) == [w] && FirstWord(w) == w
    ensures WellFormedLine(w) && PrefixesFit(measure, maxWidth, w)
  {
    SplitNoSpace(w);
  }

  /** Extending a line by a word that keeps it within the limit. */
  lemma ExtendLine(measure: Measure, maxWidth: real, line: string, w: string)
    requires WellFormedLine(line) && PrefixesFit(measure, maxWidth, line)
    requires IsWord(w) && measure(line + " " + w) <= maxWidth
    ensures Split(line + " " + w) == Split(line) + [w]
    ensures FirstWord(line + " " + w) == FirstWord(line)
    ensures WellFormedLine(line + " " + w) && PrefixesFit(measure, maxWidth, line + " " + w)
  {
    var ws := Split(line);
    var test := line + " " + w;
    SplitAppend(line, w);
    SplitNoSpace(w);
    var ws' := ws + [w];
    assert Split(test) == ws';
    JoinSnoc(ws, w);
    assert Join(ws') == test;
    forall k | 2 <= k <= |ws'|
      ensures measure(Join(ws'[..k])) <= maxWidth
    {
      if k <= |ws| {
        assert ws'[..k] == ws[..k];
      } else {
        assert ws'[..k] == ws';
      }
    }
  }

  /** The outcome the loop promises for a state: the lines hold the words seen
      so far, each line is well formed and was built while it fitted, and lines
      were closed only on overflow. */
  predicate Outcome(measure: Measure, maxWidth: real, r: seq<string>) {
    && (forall i :: 0 <= i < |r| ==> WellFormedLine(r[i]) && PrefixesFit(measure, maxWidth, r[i]))
    && Greedy(measure, maxWidth, r)
  }

  /** After the last word the pending line is closed. */
  lemma FlushKeepsOutcome(measure: Measure, maxWidth: real, lines: seq<string>, line: string)
    requires LoopState(measure, maxWidth, lines, line)
    ensures Unwrap(Flush(lines, line)) == Unwrap(lines) + Pending(line)
    ensures Outcome(measure, maxWidth, Flush(lines, line))
  {
    if line != "" {
      UnwrapSnoc(lines, line);
    }
  }

  /** A word that fits joins the current line. */
  lemma ExtendKeepsState(measure: Measure, maxWidth: real, lines: seq<string>, line: string, w: string)
    requires IsWord(w) && LoopState(measure, maxWidth, lines, line)
    requires measure(if line != "" then line + " " + w else w) <= maxWidth
    ensures var test := if line != "" then line + " " + w else w;
      && LoopState(measure, maxWidth, lines, test)
      && Pending(test) == Pending(line) + [w]
  {
    StartLine(measure, maxWidth, w);
    if line != "" {
      ExtendLine(measure, maxWidth, line, w);
    }
  }

  /** A word that does not fit closes the current line and starts the next. */
  lemma CloseKeepsState(measure: Measure, maxWidth: real, lines: seq<string>, line: string, w: string)
    requires IsWord(w) && LoopState(measure, maxWidth, lines, line)
    requires measure(if line != "" then line + " " + w else w) > maxWidth
    ensures LoopState(measure, maxWidth, Flush(lines, line), w)
    ensures Unwrap(Flush(lines, line)) + Pending(w) == Unwrap(lines) + Pending(line) + [w]
  {
    StartLine(measure, maxWidth, w);
    FlushKeepsOutcome(measure, maxWidth, lines, line);
    var closed := Flush(lines, line);
    if line != "" {
      assert closed[|closed| - 1] == line;
      assert Overflows(measure, maxWidth, line, w);
    }
  }

  lemma Regroup(u: seq<string>, p: seq<string>, w: string, tail: seq<string>)
    ensures u + (p + [w]) + tail == u + p + ([w] + tail)
    ensures (u + p + [w]) + tail == u + p + ([w] + tail)
  {
  }

  /** The loop keeps its invariant to the end and then delivers its outcome. */
  lemma {:induction false} WrapFromInvariant(measure: Measure, maxWidth: real, words: seq<string>,
                                             lines: seq<string>, line: string)
    requires AllWords(words)
    requires LoopState(measure, maxWidth, lines, line)
    ensures var r := WrapFrom(measure, maxWidth, words, lines, line);
      && Unwrap(r) == Unwrap(lines) + Pending(line) + words
      && Outcome(measure, maxWidth, r)
    decreases |words|, 1
  {
    if |words| == 0 {
      FlushKeepsOutcome(measure, maxWidth, lines, line);
      assert Unwrap(lines) + Pending(line) + words == Unwrap(lines) + Pending(line);
    } else {
      var w := words[0];
      var test := if line != "" then line + " " + w else w;
      if measure(test) <= maxWidth {
        WrapFromExtend(measure, maxWidth, words, lines, line);
      } else {
        WrapFromClose(measure, maxWidth, words, lines, line);
      }
    }
  }

  /** The invariant across a word that fits on the current line. */
  lemma {:induction false} WrapFromExtend(measure: Measure, maxWidth: real, words: seq<string>,
                                          lines: seq<string>, line: string)
    requires AllWords(words) && |words| > 0
    requires LoopState(measure, maxWidth, lines, line)
    requires measure(if line != "" then line + " " + words[0] else words[0]) <= maxWidth
    ensures var r := WrapFrom(measure, maxWidth, words, lines, line);
      && Unwrap(r) == Unwrap(lines) + Pending(line) + words
      && Outcome(measure, maxWidth, r)
    decreases |words|, 0
  {
    var w, tail := words[0], words[1..];
    var test := if line != "" then line + " " + w else w;
    assert AllWords(tail);
    assert words == [w] + tail;
    var r := WrapFrom(measure, maxWidth, tail, lines, test);
    assert WrapFrom(measure, maxWidth, words, lines, line) == r;
    ExtendKeepsState(measure, maxWidth, lines, line, w);
    WrapFromInvariant(measure, maxWidth, tail, lines, test);
    Regroup(Unwrap(lines), Pending(line), w, tail);
  }

  /** The invariant across a word that closes the current line. */
  lemma {:induction false} WrapFromClose(measure: Measure, maxWidth: real, words: seq<string>,
                                         lines: seq<string>, line: string)
    requires AllWords(words) && |words| > 0
    requires LoopState(measure, maxWidth, lines, line)
    requires measure(if line != "" then line + " " + words[0] else words[0]) > maxWidth
    ensures var r := WrapFrom(measure, maxWidth, words, lines, line);
      && Unwrap(r) == Unwrap(lines) + Pending(line) + words
      && Outcome(measure, maxWidth, r)
    decreases |words|, 0
  {
    var w, tail := words[0], words[1..];
    assert AllWords(tail);
    assert words == [w] + tail;
    var closed := Flush(lines, line);
    var r := WrapFrom(measure, maxWidth, tail, closed, w);
    assert WrapFrom(measure, maxWidth, words, lines, line) == r;
    CloseKeepsState(measure, maxWidth, lines, line, w);
    WrapFromInvariant(measure, maxWidth, tail, closed, w);
    var u, p, c := Unwrap(lines), Pending(line), Unwrap(closed);
    assert c + Pending(w) == u + p + [w];
    assert Unwrap(r) == (c + Pending(w)) + tail;
    Regroup(u, p, w, tail);
    assert Unwrap(r) == u + p + words;
  }

  // ---------------------------------------------------------------------------
  // Consequences of being the greedy wrap

  lemma {:induction false} UnwrapCons(lines: seq<string>)
    requires |lines| > 0
    ensures Unwrap(lines) == Split(lines[0]) + Unwrap(lines[1..])
    decreases |lines|
  {
    var n := |lines|;
    if n == 1 {
      assert lines[..0] == [];
      assert lines[1..] == [];
    } else {
      var init := lines[..n - 1];
      var tail := lines[1..];
      UnwrapCons(init);
      assert init[0] == lines[0];
      assert init[1..] == tail[..n - 2];
      assert tail[n - 2] == lines[n - 1];
      calc {
        Unwrap(lines);
        Unwrap(init) + Split(lines[n - 1]);
        Split(lines[0]) + Unwrap(init[1..]) + Split(lines[n - 1]);
        Split(lines[0]) + (Unwrap(tail[..n - 2]) + Split(tail[n - 2]));
        Split(lines[0]) + Unwrap(tail);
      }
    }
  }

  lemma UnwrapLength(lines: seq<string>)
    ensures |Unwrap(lines)| >= |lines|
  {
  }

  /** Each line either fits the width limit or is a single word too wide to fit
      on its own; no line is empty, and the lines hold exactly the text's words. */
  lemma WrappedLinesFit(measure: Measure, text: string, maxWidth: real)
    ensures var r := WrapTextLines(measure, text, maxWidth);
      && Unwrap(r) == Tokens(text)
      && |r| <= |Tokens(text)|
      && (|r| == 0 <==> |Tokens(text)| == 0)
      && forall i :: 0 <= i < |r| ==> r[i] != "" && Fits(measure, maxWidth, r[i])
  {
    var r := WrapTextLines(measure, text, maxWidth);
    UnwrapLength(r);
    forall i | 0 <= i < |r|
      ensures Fits(measure, maxWidth, r[i])
    {
      var ws := Split(r[i]);
      if |ws| >= 2 {
        assert ws[..|ws|] == ws;
        assert measure(Join(ws[..|ws|])) <= maxWidth;
      }
    }
  }

  /** Two greedy wraps of the same words are the same lines: the greedy wrap is
      determined by the words, the measure and the limit. */
  lemma {:induction false} GreedyWrapUnique(measure: Measure, maxWidth: real, words: seq<string>,
                                            a: seq<string>, b: seq<string>)
    requires AllWords(words)
    requires IsGreedyWrap(measure, maxWidth, words, a)
    requires IsGreedyWrap(measure, maxWidth, words, b)
    ensures a == b
    decreases |a|
  {
    if |a| == 0 || |b| == 0 {
      UnwrapLength(a);
      UnwrapLength(b);
      if |a| > 0 {
        UnwrapCons(a);
      }
      if |b| > 0 {
        UnwrapCons(b);
      }
    } else {
      UnwrapCons(a);
      UnwrapCons(b);
      var pa := Split(a[0]);
      var pb := Split(b[0]);
      assert words == pa + Unwrap(a[1..]) == pb + Unwrap(b[1..]);
      if |pa| < |pb| {
        FirstLineNotShorter(measure, maxWidth, words, a, b);
      } else if |pb| < |pa| {
        FirstLineNotShorter(measure, maxWidth, words, b, a);
      }
      assert pa == words[..|pa|] == pb;
      assert a[0] == Join(pa) == Join(pb) == b[0];
      var rest := words[|pa|..];
      assert Unwrap(a[1..]) == rest == Unwrap(b[1..]);
      TailIsGreedyWrap(measure, maxWidth, words, a, rest);
      TailIsGreedyWrap(measure, maxWidth, words, b, rest);
      GreedyWrapUnique(measure, maxWidth, rest, a[1..], b[1..]);
      assert a == [a[0]] + a[1..];
      assert b == [b[0]] + b[1..];
    }
  }

  lemma TailIsGreedyWrap(measure: Measure, maxWidth: real, words: seq<string>, a: seq<string>,
                          rest: seq<string>)
    requires |a| > 0 && IsGreedyWrap(measure, maxWidth, words, a)
    requires words == Split(a[0]) + rest
    ensures IsGreedyWrap(measure, maxWidth, rest, a[1..])
  {
    UnwrapCons(a);
    var n := |Split(a[0])|;
    assert rest == words[n..];
    assert Unwrap(a[1..]) == (Split(a[0]) + Unwrap(a[1..]))[n..];
    var t := a[1..];
    forall i | 0 <= i < |t| - 1
      ensures Overflows(measure, maxWidth, t[i], t[i + 1])
    {
      assert t[i] == a[i + 1] && t[i + 1] == a[i + 2];
    }
  }

  /** In a greedy wrap the first line cannot be shorter than in another greedy
      wrap of the same words: the word after it would have fitted. */
  lemma FirstLineNotShorter(measure: Measure, maxWidth: real, words: seq<string>,
                            a: seq<string>, b: seq<string>)
    requires AllWords(words)
    requires |a| > 0 && |b| > 0
    requires IsGreedyWrap(measure, maxWidth, words, a)
    requires IsGreedyWrap(measure, maxWidth, words, b)
    ensures |Split(a[0])| >= |Split(b[0])|
  {
    UnwrapCons(a);
    UnwrapCons(b);
    var pa := Split(a[0]);
    var pb := Split(b[0]);
    if |pa| < |pb| {
      var n := |pa|;
      assert pa == words[..n];
      assert pb == words[..|pb|];
      // the words of `a` continue on a second line, which starts with words[n]
      UnwrapLength(a[1..]);
      assert |Unwrap(a[1..])| > 0;
      assert |a| >= 2;
      UnwrapCons(a[1..]);
      var second := Split(a[1]);
      assert Unwrap(a[1..]) == second + Unwrap(a[2..]);
      assert |second| > 0;
      assert FirstWord(a[1]) == words[n];
      assert Overflows(measure, maxWidth, a[0], a[1]);
      // but the first line of `b` holds words[..n + 1], which fitted
      assert pb[..n + 1] == pa + [words[n]];
      assert n >= 1;
      assert forall k :: 0 <= k < |pa| ==> NoSpace(pa[k]);
      JoinSnoc(pa, words[n]);
      assert false;
    }
  }

  /** `wrapTextLines` is the only greedy wrap of the text's words. */
  lemma WrapTextLinesUnique(measure: Measure, text: string, maxWidth: real, lines: seq<string>)
    requires IsGreedyWrap(measure, maxWidth, Tokens(text), lines)
    ensures lines == WrapTextLines(measure, text, maxWidth)
  {
    GreedyWrapUnique(measure, maxWidth, Tokens(text), lines, WrapTextLines(measure, text, maxWidth));
  }
}
